=== FILE: README.md ===
# GridStatus.io API client — Dafny model

A model of the Python client for the GridStatus.io data API
(`gridstatusio/gs_client.py`). It covers five parts of the client:

1. **`log`**: when the verbosity gate prints.
2. **`GridStatusClient`**:
   - construction: the API key fallback to the environment and the
     request-format check;
   - `get`: the `return_format`/`json_schema` defaulting, the rate-limit
     retry loop with exponential backoff, and the JSON array-of-arrays
     decoding.
3. **`list_datasets`**: the case-insensitive, order-preserving filter over
   the dataset catalogue.
4. **`get_dataset`**:
   - the `tz`/`timezone` conflict check;
   - the query parameters built for each page;
   - the pagination loop (page number, cursor, `filter_value`
     reassignment, accumulated tables and `total_rows`);
   - the concatenation of the pages.
5. **Datetime-column normalisation**: which columns of the result are
   datetimes, and which of those are converted to a local zone and renamed
   with a `_local` suffix.

The network is replaced by inputs:

- `Client.Get` reads the k-th HTTP response from a function
  `respond: nat -> Response` and returns the delays it slept.
- `Pagination.GetDataset` reads the outcome of its k-th `get` call from
  a finite sequence `pages`. When that sequence runs out while the last
  page still announces a next page, the outcome is `StillPaging`, where
  the real client would go on requesting.

Data frames are `Table`s: a header row plus rows of JSON scalars. Timestamp
values stay abstract. A column's normalisation is recorded as its new label
and a `Kind` (`Raw`, `UtcInstant` or `LocalInstant(zone)`). The exceptions
the model covers are `Error` values in a `Result`: the missing API key, the
bad request format, an HTTP error status, exhausted rate-limit retries, an
empty `data` array, the `tz`/`timezone` conflict and a page without `meta`.
It also covers `NoResponse`: with `max_retries < 0` the retry loop of `get`
never runs, `response` is never bound, and Python raises
`UnboundLocalError` at its first use after the loop
(gridstatusio/gs_client.py:123-135).
The exceptions it does not cover are listed under "Left out".

Each page request is recorded as `Request(url, page, cursor, filterValue)`:
the URL and the three values that change from page to page. The params
dict sent for it is `Pagination.SentParams(q, r)`, that is
`Query.PageParams(q, page, cursor, filterValue)`.

The modules follow the structure of the client:

- `Common`: Option, Result, errors, powers of two;
- `Strings`: `lower`, `in`, `endswith`, `replace`, `",".join` and its
  inverse split;
- `Logging`;
- `Client`;
- `Catalog`;
- `Query`;
- `Normalize`;
- `Pagination`.

Where the code and its docstrings disagree, the model follows the code:

- The `limit` docstring (gridstatusio/gs_client.py:284) calls it the
  maximum number of rows returned. The page loop does not stop when
  `limit` rows have been fetched: `limit` is only forwarded as a query
  parameter.
- The `timezone` docstring (gridstatusio/gs_client.py:293-296) promises
  both UTC and local time columns. In the code, a datetime column whose
  name ends in `_utc` keeps its name and stays in UTC, and every other
  datetime column is converted in place and renamed with `_local`. No UTC
  copy is kept next to a converted column.
- `resample_by` is documented as a column or a list of columns
  (gridstatusio/gs_client.py:276). The params sent are modelled as
  written, so one column name goes out comma-joined character by
  character (see "Findings").
- The `use_cursor_pagination` docstring (gridstatusio/gs_client.py:302-303)
  says it defaults to False, but the signature default is True
  (gridstatusio/gs_client.py:236). `Query.DefaultQuery` uses True.

The page loop ends only on a page whose `hasNextPage` is false or missing.
Each request sends the cursor the previous page returned, whatever it is.

## Model

| member | source | states |
|---|---|---|
| Logging.Prints | gridstatusio/gs_client.py:15-24 | `False` prints nothing; "debug" prints every level; `True` and "info" print exactly the "info" messages; nothing else prints |
| Logging.TrueMeansInfo | gridstatusio/gs_client.py:17-18 | `verbose=True` behaves as "info" for every level |
| Client.NewClient | gridstatusio/gs_client.py:51-71 | succeeds exactly when a key exists (argument or environment) and the format is "json" or "csv"; fails with the missing-key error exactly when neither the argument nor the environment holds a key; fails with the format error exactly when a key exists and the format is neither; on success the client holds the argument key (else the environment key), the host, the format and `max_retries` |
| Client.NewClientDefaults | gridstatusio/gs_client.py:28-34 | with the default host, "json" and 3 retries, a key passed as an argument always makes a client holding those values |
| Client.WithDefaultFormat | gridstatusio/gs_client.py:90-94 | a caller-supplied `return_format` leaves the params untouched; otherwise exactly `return_format` (and, for JSON only, `json_schema="array-of-arrays"`) is added and every other key keeps its value |
| Client.KeyNameInjective | gridstatusio/gs_client.py:346-377 | no two parameter keys share a name in the query string |
| Client.Decode | gridstatusio/gs_client.py:131 | fails exactly on an empty `data`; otherwise the header is `data[0]` and the rows are `data[1:]` in order, `len(data) - 1` of them |
| Client.DecodeBody | gridstatusio/gs_client.py:126-137 | JSON: fails with `EmptyData` exactly when `data` is empty; otherwise the header is `data[0]`, the rows are `data[1:]` and `meta` with `dataset_metadata` come along; CSV: always succeeds with the table `pd.read_csv` makes and neither `meta` nor `dataset_metadata` |
| Client.Encode | gridstatusio/gs_client.py:131 | the array-of-arrays layout has one more row than the table, with the header first |
| Client.DecodeEncode | gridstatusio/gs_client.py:131 | decoding the array-of-arrays layout of a table gives the table back |
| Client.EncodeDecode | gridstatusio/gs_client.py:131 | re-encoding a decoded non-empty `data` gives `data` back |
| Client.Backoff | gridstatusio/gs_client.py:107-110 | n retries sleep n times |
| Client.BackoffAt | gridstatusio/gs_client.py:109 | the k-th retry (from 0) sleeps 2^k seconds |
| Client.BackoffTotal | gridstatusio/gs_client.py:99-119 | n retries sleep 2^n - 1 seconds in all |
| Client.Get | gridstatusio/gs_client.py:76-137 | the params sent are the defaulted ones; at most `max_retries + 1` requests (none when `max_retries < 0`, which fails); every response but the last is a 429 and the sleeps are the backoff schedule; a final 200 yields the decoded body, a final 429 happens only at request `max_retries + 1` and fails as rate-limited, any other final status fails with that status |
| Client.RecoverFromRateLimit | gridstatusio/gs_client.py:99-119 | n ≤ `max_retries` 429s followed by a 200 take n + 1 requests, return the decoded body and sleep 2^n - 1 seconds |
| Client.ExhaustRetries | gridstatusio/gs_client.py:101-106 | `max_retries + 1` 429s in a row fail as rate-limited after exactly that many requests, having slept 2^max_retries - 1 seconds |
| Catalog.Matching | gridstatusio/gs_client.py:157-168 | a record is kept exactly when it is in the catalogue and there is no term or it `Matches`: the lowered term is in its lowered id, name or `Description` (a missing description reads as ""); never more records than the catalogue |
| Catalog.MatchingAppend | gridstatusio/gs_client.py:159-168 | filtering two catalogue slices one after the other gives the two filterings concatenated: catalogue order is kept |
| Catalog.MatchingWithoutTerm | gridstatusio/gs_client.py:163 | with no filter term every record is kept, in order |
| Catalog.MatchingEmptyTerm | gridstatusio/gs_client.py:163-166 | the empty term keeps every record, in order |
| Catalog.MatchesIgnoresTermCase | gridstatusio/gs_client.py:164-166 | lower-casing the term first changes nothing |
| Catalog.ListDatasets | gridstatusio/gs_client.py:157-216 | returns a list exactly when `return_list` is set, and that list is the filtered catalogue in order |
| Strings.LowerStr | gridstatusio/gs_client.py:164-166 | lower-casing keeps the length and lowers each character |
| Strings.RemoveAll | gridstatusio/gs_client.py:452 | removing a pattern never lengthens a string |
| Strings.RemoveAllWithoutMatch | gridstatusio/gs_client.py:452 | a string without the pattern is unchanged |
| Strings.RemoveAllAroundUtc | gridstatusio/gs_client.py:452 | every occurrence of `_utc` is removed, not only a suffix: removing it from `a + "_utc" + b` removes it from `a` and `b` separately |
| Strings.Characters | gridstatusio/gs_client.py:353-355 | iterating a string gives one one-character string per character, in order |
| Strings.Split | gridstatusio/gs_client.py:370 | splitting on commas gives at least one item |
| Strings.SplitJoin | gridstatusio/gs_client.py:368-377 | splitting `",".join(xs)` on commas gives back a non-empty list of comma-free items |
| Query.NextFilterValueIdempotent | gridstatusio/gs_client.py:368-370 | `NextFilterValue`, the reassignment of `filter_value` inside the guard (an "in" list joined by `SentFilterValue`), is stable after the first page |
| Query.InListRoundTrip | gridstatusio/gs_client.py:369-373 | an "in" list of comma-free values is sent as a string that splits back into the list |
| Query.ResampleByAsWritten | gridstatusio/gs_client.py:353-355 | `resample_by` as written is always sent as a string |
| Query.ResampleBySingleColumnSplit | gridstatusio/gs_client.py:353-355 | as written, the single column "market" is sent as "m,a,r,k,e,t", not "market" |
| Query.ResampleByParam | gridstatusio/gs_client.py:353-355 | the corrected `resample_by` is always sent as a string |
| Query.ResampleByParamRoundTrip | gridstatusio/gs_client.py:353-355 | the corrected `resample_by` splits back into the requested column or columns |
| Query.BaseParams | gridstatusio/gs_client.py:346-359 | the literal dict holds exactly the ten base keys (no cursor, filter, columns or format key); the page number and `limit` are sent as given |
| Query.BaseParamsPassThrough | gridstatusio/gs_client.py:346-359 | `start_time`, `end_time`, `page_size`, `publish_time` and `timezone` carry the arguments, None where not given |
| Query.WithFilter | gridstatusio/gs_client.py:372-374 | adds exactly the three filter keys with their values and changes no other key |
| Query.CursorAndFilter | gridstatusio/gs_client.py:361-374 | every key of the literal keeps its value; no `columns` key is added |
| Query.PageParams | gridstatusio/gs_client.py:346-377 | the params of one page: every base key keeps its literal value, so the page number is sent and `limit` only forwarded; `columns` is present exactly when given, comma-joined |
| Query.PageParamsResampling | gridstatusio/gs_client.py:352-356 | the resampling frequency is sent as given; `resample_function` is sent only with a truthy `resample`; `resample_by` is sent as `",".join(resample_by)` as written, None when not given |
| Query.PageParamsResampleByList | gridstatusio/gs_client.py:353-355 | a non-empty list of comma-free columns reaches the server as a string that splits back into the list |
| Query.CursorAndFilterKeys | gridstatusio/gs_client.py:346-374 | after the cursor and filter steps the keys are exactly the base keys, `cursor` in cursor mode and the three filter keys under the guard |
| Query.PageParamsKeys | gridstatusio/gs_client.py:346-377 | the keys of a page's params are exactly the base keys, `cursor` in cursor mode, the filter keys under the guard and `columns` when given |
| Query.PageParamsLeaveFormatToGet | gridstatusio/gs_client.py:346-377 | a page's params carry neither `return_format` nor `json_schema`, so `get` fills both in |
| Query.CursorAndFilterCursor | gridstatusio/gs_client.py:363-364 | `cursor` is present exactly in cursor mode, with the current cursor |
| Query.CursorAndFilterFilter | gridstatusio/gs_client.py:368-374 | each of the three filter keys is present exactly when `SendsFilter` holds (`filter_column is not None or filter_value != ""`), with the column, the value `SentFilterValue` gives (an "in" list comma-joined) and the operator |
| Query.PageParamsOtherKeys | gridstatusio/gs_client.py:376-377 | adding `columns` leaves every other key, present or absent, as it was |
| Query.PageParamsCursor | gridstatusio/gs_client.py:363-364 | in the sent params, `cursor` is present exactly in cursor mode, with the current cursor |
| Query.PageParamsFilter | gridstatusio/gs_client.py:368-374 | in the sent params, the three filter keys are present exactly when the filter guard holds, with their values |
| Query.DefaultQueryHasFilterKeys | gridstatusio/gs_client.py:368-374 | with every argument at its default, the params dict still holds the three filter keys: column and value None, operator "=" |
| Query.EmptyInListDropsFilterAfterFirstPage | gridstatusio/gs_client.py:368-374 | an empty "in" list with no filter column sends the filter on page 1 and drops it from page 2 on |
| Normalize.FirstMeta | gridstatusio/gs_client.py:433-436 | finds the first metadata entry whose name is the column's (no earlier entry has that name), and finds none exactly when no entry has that name |
| Normalize.IsDatetime | gridstatusio/gs_client.py:438-440 | only string-labelled columns can be datetimes |
| Normalize.DatetimeColumnsExactly | gridstatusio/gs_client.py:427-440 | with distinct metadata names, a column is a datetime exactly when an entry of its name is flagged `is_datetime` or it is `interval_start_utc`/`interval_end_utc` |
| Normalize.LocalName | gridstatusio/gs_client.py:452 | the new label ends in `_local` |
| Normalize.LocalNameOfUtcColumn | gridstatusio/gs_client.py:452 | `stem_utc` becomes `stem_local` when the stem holds no `_utc` |
| Normalize.NormalizedColumn | gridstatusio/gs_client.py:438-453 | only datetime columns change kind; a non-UTC `tz` converts and renames every datetime column; a non-UTC `timezone` converts and renames those not ending in `_utc` and leaves `_utc` ones as UTC under their name; with no non-UTC zone nothing is renamed or converted (the gate is `ConvertsToLocal`, the zone `TargetZone`, `timezone or tz`) |
| Normalize.NormalizeColumns | gridstatusio/gs_client.py:432-453 | the loop over the columns makes each label and kind what the per-column rule says, keeping the column count |
| Pagination.Consumed | gridstatusio/gs_client.py:343-383 | the loop requests at least one page when there is one and never more than there are; when pages remain, the last one requested ends the loop |
| Pagination.ConsumedContinuesBefore | gridstatusio/gs_client.py:343-383 | every page before the last one requested announces a next page |
| Pagination.ConsumedExactly | gridstatusio/gs_client.py:343-383 | the number of pages requested is exactly the position of the first page that ends the loop, or all of them |
| Pagination.ConsumedStep | gridstatusio/gs_client.py:343-383 | a requested page that ends the loop is the last one requested; one that does not is followed by another request or by the end of the pages |
| Pagination.RunsOutIff | gridstatusio/gs_client.py:343-383 | the loop runs out of pages (all requested, the last still announcing a next page) exactly when no page ends it |
| Pagination.RequestsUpTo | gridstatusio/gs_client.py:343-382 | n pages give n requests |
| Pagination.RequestsUpToAt | gridstatusio/gs_client.py:330-385 | request k (from 0) has page number k + 1, the cursor of the page before ("" first) and the `filter_value` of that point |
| Pagination.Tables | gridstatusio/gs_client.py:389 | one table per page |
| Pagination.TablesAt | gridstatusio/gs_client.py:389 | the k-th accumulated table is the k-th page's |
| Pagination.FlattenLength | gridstatusio/gs_client.py:387-417 | the concatenated table has `total_rows` rows, the sum of the page lengths |
| Pagination.FlattenAppend | gridstatusio/gs_client.py:417 | concatenation keeps arrival order |
| Pagination.PageStep | gridstatusio/gs_client.py:368-389 | one more page appends one request, reassigns `filter_value` once, appends its table and adds its length to `total_rows` |
| Pagination.FetchPages | gridstatusio/gs_client.py:329-412 | exactly the pages up to the first that `EndsPaging` (an error, no `meta`, or `hasNextPage` not true) are requested, each as `RequestsUpTo` says; the first page whose `PageError` is set (it raises or lacks `meta`) stops the loop with that error; otherwise the loop runs out of pages exactly when the last page requested still announces a next page, the tables are the pages' in order, `total_rows` is their row count and the column metadata is the last page's |
| Pagination.Assemble | gridstatusio/gs_client.py:417-453 | the result of `Concat` and normalisation holds every page's rows in arrival order, `total_rows` equal to its length, and the first page's columns, each normalised by the last page's metadata |
| Pagination.SentParamsDefaulted | gridstatusio/gs_client.py:90-94 | `get` adds to the params of each page request exactly `return_format` (and `json_schema` for JSON), with the client's format, and keeps every other value |
| Pagination.GetDataset | gridstatusio/gs_client.py:314-455 | `TimezonesConflict` (`tz` and `timezone` both truthy) fails before any request; otherwise the requests are those of the page loop; the result is `StillPaging` exactly when no page ends the loop; it fails exactly on the conflict or when the last page requested raised or lacked `meta`; it is `Done` exactly when the loop stopped on a page without error, and is then assembled from the pages read |

## Left out

- Network, HTTP headers and `requests.get`: replaced by the response
  function and the page sequence. The client version header is not
  modelled.
- `time.sleep`: the backoff sleeps are recorded as a list of delays. The
  inter-page `sleep_time` pause is not modelled.
- `time.time` and the timing statistics (`response_time`, `total_time`,
  `avg_time_per_page`, the percentage of `limit`): they are floating point
  and only printed.
- The `log` calls inside `get`, `list_datasets` and `get_dataset`: only
  when `log` prints is modelled, not what it prints. `tabulate` and
  `colored` are not modelled either.
- Catalog.ListDatasets: a catalogue record is reduced to its `id`, `name`
  and `description`. With `return_list=True` the source returns the whole
  record dicts, including `earliest_available_time`,
  `latest_available_time`, `num_rows` and `all_columns`; the model returns
  the same records, in the same order, with only those three fields.
- `warnings.warn` for the deprecated `tz`: it has no effect on the result.
- `os.environ`: the environment key is the `envApiKey` parameter.
- `utils.handle_date` is not part of this model. `start` and `end` enter
  the query already converted.
- `return_raw_response_json` in `get`: the raw JSON is not modelled.
- pandas:
  - `pd.read_csv` is a table carried in the response body;
  - `pd.to_datetime` and `tz_convert` are abstract kinds;
  - column alignment in `pd.concat` is not modelled, and the result takes
    the first page's header;
  - ragged rows are not rejected.
- Label collisions created by the `_local` rename: the model renames
  labels one by one.
- Pagination.GetDataset: the page sequence is finite, so a server that
  never stops announcing pages is seen as `StillPaging` after the given
  pages, not as a loop that does not end.
- Pagination.GetDataset: for the CSV format `get` returns no `meta`, and
  `get_dataset` fails at `meta.get`. This is modelled as the error
  `MissingMeta`, not as an `AttributeError`.
- Strings.LowerStr: only ASCII letters are lower-cased, unlike Python's
  Unicode `str.lower`.
- `get_daily_peak_report` and the `__repr__` method: outside the modelled
  core.
- Lists of non-strings: `Value.PList` holds strings only, so the
  `TypeError` that `",".join` raises on a list of numbers is not modelled
  (`filter_value` under "in" at gridstatusio/gs_client.py:370, and
  likewise `resample_by` at 354 and `columns` at 377).
- A JSON body without a `meta` or `dataset_metadata` key: `Body` always
  carries both, so the `KeyError` at gridstatusio/gs_client.py:132-133 is
  not modelled.
- A null `dataset_metadata`: the `AttributeError` that `.get` raises on it
  at gridstatusio/gs_client.py:422 is not modelled. `DatasetMetadata` is
  always an object, and only its `all_columns` key may be missing.
- Duplicate column labels in a page header: `df[col_name]` then selects
  several columns, and the conversion at gridstatusio/gs_client.py:441
  fails. The model normalises each label on its own.
- Malformed server metadata: a JSON `"meta": null` (then `meta.get` at
  gridstatusio/gs_client.py:383 raises `AttributeError`), an
  `"all_columns": null` (the generator at 434 raises `TypeError`), and a
  column entry without `name` or `is_datetime` (`KeyError` at 434 or 438).
  `Meta` is always an object, `allColumns = None` stands for an absent key
  (read as `[]`), and `ColumnMeta` always has both fields.
- Failures inside pandas: `pd.to_datetime` on an unparsable value
  (gridstatusio/gs_client.py:441) and `tz_convert` with an unknown zone
  name (449) raise. The model always yields `UtcInstant` or
  `LocalInstant`.
- `sleep_time`: it is not a field of `DatasetQuery`, so the `ValueError`
  that `time.sleep` raises on a negative value after the first page
  (gridstatusio/gs_client.py:413) is not modelled.

## Findings

| source | as written | input that shows it | evidently intended | confidence | as-written member | corrected member |
|---|---|---|---|---|---|---|
| gridstatusio/gs_client.py:353-355 | `",".join(resample_by)` runs over the characters when `resample_by` is one column name (a string), which the docstring allows | `resample_by="market"` is sent as `"m,a,r,k,e,t"` | one column name is sent as it is; a list is comma-joined | not executed | Query.ResampleByAsWritten, Query.ResampleBySingleColumnSplit | Query.ResampleByParam, Query.ResampleByParamRoundTrip |

=== FILE: catalog.dfy ===
/** `list_datasets`: keep the catalogue records whose id, name or
    description contains the filter term, ignoring case, in catalogue order. */
module Catalog {
  import opened Common
  import opened Strings

  /** A catalogue record, reduced to the fields the filter reads;
      `description` is `None` when the key is missing or null. */
  datatype Dataset = Dataset(id: string, name: string, description: Option<string>)

  /** A missing or null description reads as "". */
  function Description(d: Dataset): string {
    d.description.GetOr("")
  }

  /** Case-insensitive substring match on id, name or description. */
  predicate Matches(d: Dataset, term: string) {
    var t := LowerStr(term);
    Contains(LowerStr(d.id), t) || Contains(LowerStr(d.name), t) || Contains(LowerStr(Description(d)), t)
  }

  predicate Keeps(d: Dataset, filterTerm: Option<string>) {
    filterTerm.None? || Matches(d, filterTerm.value)
  }

  /** The records `list_datasets` keeps, in catalogue order: a record is
      kept exactly when it is in the catalogue and matches. */
  function Matching(ds: seq<Dataset>, filterTerm: Option<string>): (r: seq<Dataset>)
    ensures |r| <= |ds|
    ensures forall d :: d in r <==> d in ds && Keeps(d, filterTerm)
  {
    if ds == [] then []
    else
      var last := ds[|ds| - 1];
      assert ds == ds[..|ds| - 1] + [last];
      Matching(ds[..|ds| - 1], filterTerm) + (if Keeps(last, filterTerm) then [last] else [])
  }

  /** Filtering the concatenation of two catalogue slices concatenates
      their filterings: the relative order of kept records is preserved. */
  lemma {:induction false} MatchingAppend(a: seq<Dataset>, b: seq<Dataset>, filterTerm: Option<string>)
    ensures Matching(a + b, filterTerm) == Matching(a, filterTerm) + Matching(b, filterTerm)
    decreases |b|
  {
    if b != [] {
      var init := b[..|b| - 1];
      assert (a + b)[..|a + b| - 1] == a + init;
      assert (a + b)[|a + b| - 1] == b[|b| - 1];
      MatchingAppend(a, init, filterTerm);
    } else {
      assert a + b == a;
    }
  }

  /** Without a filter term every record is kept, in order. */
  lemma {:induction false} MatchingWithoutTerm(ds: seq<Dataset>)
    ensures Matching(ds, None) == ds
  {
    if ds != [] {
      MatchingWithoutTerm(ds[..|ds| - 1]);
    }
  }

  /** The empty term is a substring of every id, so it keeps everything. */
  lemma {:induction false} MatchingEmptyTerm(ds: seq<Dataset>)
    ensures Matching(ds, Some("")) == ds
  {
    if ds != [] {
      var last := ds[|ds| - 1];
      MatchingEmptyTerm(ds[..|ds| - 1]);
      assert Contains(LowerStr(last.id), LowerStr(""));
      assert ds[..|ds| - 1] + [last] == ds;
    }
  }

  /** The term's case does not matter. */
  lemma MatchesIgnoresTermCase(d: Dataset, term: string)
    ensures Matches(d, LowerStr(term)) == Matches(d, term)
  {
    assert LowerStr(LowerStr(term)) == LowerStr(term);
  }

  /** `list_datasets(filter_term, return_list)` over the records the catalogue
      request returned. Returns the matched list when `return_list` is set and
      `None` otherwise (the records are then printed instead). */
  method ListDatasets(datasets: seq<Dataset>, filterTerm: Option<string>, returnList: bool)
    returns (r: Option<seq<Dataset>>)
    ensures r.Some? <==> returnList
    ensures r.Some? ==> r.value == Matching(datasets, filterTerm)
  {
    var matched: seq<Dataset> := [];
    var i := 0;
    while i < |datasets|
      invariant 0 <= i <= |datasets|
      invariant matched == Matching(datasets[..i], filterTerm)
    {
      var dataset := datasets[i];
      assert datasets[..i + 1][..i] == datasets[..i];
      if Keeps(dataset, filterTerm) {
        matched := matched + [dataset];
      }
      i := i + 1;
    }
    assert datasets[..i] == datasets;
    r := if returnList then Some(matched) else None;
  }
}

=== FILE: client.dfy ===
/** `GridStatusClient`: its construction, and `get`, which fills in the
    default response format, retries on HTTP 429 with exponential backoff
    and decodes the JSON array-of-arrays body into a table. The network is
    replaced by a stream of responses, `time.sleep` by the list of delays
    slept. */
module Client {
  import opened Common

  const DefaultHost := "https://api.gridstatus.io/v1"
  const DefaultMaxRetries := 3
  /** Seconds slept before the first retry. */
  const InitialDelay := 1

  datatype Format = Json | Csv

  function FormatName(f: Format): string {
    match f
    case Json => "json"
    case Csv => "csv"
  }

  /** The configuration a client holds; `__init__` sets it once. */
  datatype GridStatusClient = GridStatusClient(
    apiKey: string,
    host: string,
    requestFormat: Format,
    maxRetries: int)

  /** `GridStatusClient(api_key, host, request_format, max_retries)`, with
      `envApiKey` the value of GRIDSTATUS_API_KEY in the environment. A
      missing key is reported before a bad format. */
  function NewClient(apiKey: Option<string>, envApiKey: Option<string>, host: string,
                     requestFormat: string, maxRetries: int): (r: Result<GridStatusClient>)
    ensures r.Success? <==>
      (apiKey.Some? || envApiKey.Some?) && (requestFormat == "json" || requestFormat == "csv")
    ensures r == Failure(MissingApiKey) <==> apiKey.None? && envApiKey.None?
    ensures r == Failure(BadRequestFormat) <==>
      (apiKey.Some? || envApiKey.Some?) && requestFormat != "json" && requestFormat != "csv"
    ensures r.Success? ==>
      && r.value.apiKey == (if apiKey.Some? then apiKey.value else envApiKey.value)
      && r.value.host == host
      && FormatName(r.value.requestFormat) == requestFormat
      && r.value.maxRetries == maxRetries
  {
    var key := if apiKey.Some? then apiKey else envApiKey;
    if key.None? then Failure(MissingApiKey)
    else if requestFormat == "json" then Success(GridStatusClient(key.value, host, Json, maxRetries))
    else if requestFormat == "csv" then Success(GridStatusClient(key.value, host, Csv, maxRetries))
    else Failure(BadRequestFormat)
  }

  /** With the default host, format and retry count, a key given as an
      argument always makes a client. */
  lemma NewClientDefaults(apiKey: string, envApiKey: Option<string>)
    ensures NewClient(Some(apiKey), envApiKey, DefaultHost, "json", DefaultMaxRetries)
            == Success(GridStatusClient(apiKey, DefaultHost, Json, DefaultMaxRetries))
  {
  }

  /** A query-parameter value; `PNone` is Python's None, which `requests`
      leaves out of the query string. */
  datatype Value = PNone | PStr(s: string) | PInt(i: int) | PList(items: seq<string>)

  /** The query-parameter names the client sends. */
  datatype Key =
    | StartTime | EndTime | Limit | Page | PageSize
    | ResampleFrequency | ResampleBy | ResampleFunction | PublishTime | Timezone
    | Cursor | FilterColumn | FilterValue | FilterOperator | Columns
    | ReturnFormat | JsonSchema

  /** The name each key has on the wire. */
  function KeyName(k: Key): string {
    match k
    case StartTime => "start_time"
    case EndTime => "end_time"
    case Limit => "limit"
    case Page => "page"
    case PageSize => "page_size"
    case ResampleFrequency => "resample_frequency"
    case ResampleBy => "resample_by"
    case ResampleFunction => "resample_function"
    case PublishTime => "publish_time"
    case Timezone => "timezone"
    case Cursor => "cursor"
    case FilterColumn => "filter_column"
    case FilterValue => "filter_value"
    case FilterOperator => "filter_operator"
    case Columns => "columns"
    case ReturnFormat => "return_format"
    case JsonSchema => "json_schema"
  }

  /** No two keys share a name on the wire. */
  lemma KeyNameInjective(a: Key, b: Key)
    ensures KeyName(a) == KeyName(b) ==> a == b
  {
  }

  type Params = map<Key, Value>

  /** The `"return_format"` defaulting that `get` applies to its params dict:
      a value the caller gave is never touched; otherwise the client's format
      is filled in, and for JSON the array-of-arrays schema as well. */
  function WithDefaultFormat(params: Params, format: Format): (r: Params)
    ensures ReturnFormat in params ==> r == params
    ensures ReturnFormat !in params ==>
      && r.Keys == params.Keys + {ReturnFormat} + (if format == Json then {JsonSchema} else {})
      && r[ReturnFormat] == PStr(FormatName(format))
      && (format == Json ==> r[JsonSchema] == PStr("array-of-arrays"))
      && forall key :: key in params && (format == Csv || key != JsonSchema) ==> r[key] == params[key]
  {
    if ReturnFormat in params then params
    else
      var withFormat := params[ReturnFormat := PStr(FormatName(format))];
      if format == Json then withFormat[JsonSchema := PStr("array-of-arrays")] else withFormat
  }

  /** A JSON scalar as it appears in a table cell or a column header. */
  datatype Cell = CNull | CBool(b: bool) | CNum(n: int) | CStr(s: string)

  type Row = seq<Cell>

  /** A data frame: column labels and rows, in order. */
  datatype Table = Table(columns: seq<Cell>, rows: seq<Row>)

  /** The response's `meta` object; a missing key or a JSON null is `None`. */
  datatype Meta = Meta(hasNextPage: Option<bool>, cursor: Option<string>)

  datatype ColumnMeta = ColumnMeta(name: string, isDatetime: bool)

  /** The response's `dataset_metadata` object; `allColumns` is `None` when
      the key is absent. */
  datatype DatasetMetadata = DatasetMetadata(allColumns: Option<seq<ColumnMeta>>)

  datatype PageInfo = PageInfo(meta: Meta, datasetMetadata: DatasetMetadata)

  /** A response body: the JSON fields `data`, `meta` and `dataset_metadata`,
      and, for the CSV format, the table `pd.read_csv` makes of the text. */
  datatype Body = Body(data: seq<Row>, info: PageInfo, csvTable: Table)

  datatype Response = Response(status: int, body: Body)

  /** What `get` returns: the table, and `meta` with `dataset_metadata`
      (both `None` for CSV). */
  datatype Fetched = Fetched(table: Table, info: Option<PageInfo>)

  /** `pd.DataFrame(data[1:], columns=data[0])`. */
  function Decode(data: seq<Row>): (r: Result<Table>)
    ensures r.Failure? <==> data == []
    ensures r.Failure? ==> r.error == EmptyData
    ensures r.Success? ==>
      && r.value.columns == data[0]
      && |r.value.rows| == |data| - 1
      && forall k :: 0 <= k < |r.value.rows| ==> r.value.rows[k] == data[k + 1]
  {
    if data == [] then Failure(EmptyData) else Success(Table(data[0], data[1..]))
  }

  /** The array-of-arrays layout the server sends: header first, then rows. */
  function Encode(t: Table): (data: seq<Row>)
    ensures |data| == |t.rows| + 1 && data[0] == t.columns
  {
    [t.columns] + t.rows
  }

  lemma DecodeEncode(t: Table)
    ensures Decode(Encode(t)) == Success(t)
  {
    assert Encode(t)[1..] == t.rows;
  }

  lemma EncodeDecode(data: seq<Row>)
    requires data != []
    ensures Decode(data).Success? && Encode(Decode(data).value) == data
  {
  }

  /** The part of `get` after the loop: decode the body of the 200 response. */
  function DecodeBody(format: Format, body: Body): (r: Result<Fetched>)
    // CSV: the table read from the text, with neither `meta` nor `dataset_metadata`
    ensures format == Csv ==> r.Success? && r.value.table == body.csvTable && r.value.info.None?
    // JSON: fails exactly on an empty `data`, else header `data[0]`, rows `data[1:]`
    ensures format == Json ==> (r.Failure? <==> body.data == [])
    ensures r.Failure? ==> r.error == EmptyData
    ensures format == Json && r.Success? ==>
      && r.value.table.columns == body.data[0]
      && r.value.table.rows == body.data[1..]
      && r.value.info == Some(body.info)
  {
    match format
    case Csv => Success(Fetched(body.csvTable, None))
    case Json =>
      match Decode(body.data)
      case Success(t) => Success(Fetched(t, Some(body.info)))
      case Failure(e) => Failure(e)
  }

  /** The delays slept before retries 1..n: `InitialDelay * 2^k` for the
      k-th, that is 1, 2, 4, … seconds. */
  function Backoff(n: nat): (delays: seq<nat>)
    ensures |delays| == n
  {
    if n == 0 then [] else Backoff(n - 1) + [Pow2(n - 1)]
  }

  /** The k-th retry (from 0) sleeps 2^k seconds, whatever the number of
      retries after it. */
  lemma {:induction false} BackoffAt(n: nat, k: nat)
    requires k < n
    ensures Backoff(n)[k] == Pow2(k)
  {
    if k < n - 1 {
      BackoffAt(n - 1, k);
    }
  }

  /** n retries sleep 2^n - 1 seconds in all. */
  lemma {:induction false} BackoffTotal(n: nat)
    ensures Sum(Backoff(n)) + 1 == Pow2(n)
  {
    if n > 0 {
      var earlier := Backoff(n - 1);
      assert Backoff(n) == earlier + [Pow2(n - 1)];
      SumSnoc(earlier, Pow2(n - 1));
      BackoffTotal(n - 1);
    }
  }

  /** `client.get(url, params)`. The k-th request (from 0) is answered by
      `respond(k)`. Returns the outcome, the params actually sent, the
      number of requests made and the delays slept. */
  method Get(client: GridStatusClient, params: Option<Params>, respond: nat -> Response)
    returns (r: Result<Fetched>, sent: Params, requests: nat, sleeps: seq<nat>)
    ensures sent == WithDefaultFormat(params.GetOr(map[]), client.requestFormat)
    // at most max_retries + 1 requests, and none when max_retries < 0
    ensures client.maxRetries >= 0 ==> 1 <= requests <= client.maxRetries + 1
    ensures client.maxRetries < 0 ==> requests == 0 && r == Failure(NoResponse)
    // every response but the last was a 429, each followed by a doubling delay
    ensures forall k :: 0 <= k < requests - 1 ==> respond(k).status == 429
    ensures sleeps == Backoff(if requests == 0 then 0 else requests - 1)
    // the last response decides the outcome
    ensures requests >= 1 && respond(requests - 1).status == 200 ==>
      r == DecodeBody(client.requestFormat, respond(requests - 1).body)
    ensures requests >= 1 && respond(requests - 1).status == 429 ==>
      requests == client.maxRetries + 1 && r == Failure(RateLimited)
    ensures requests >= 1 && respond(requests - 1).status !in {200, 429} ==>
      r == Failure(HttpError(respond(requests - 1).status))
  {
    sent := WithDefaultFormat(params.GetOr(map[]), client.requestFormat);
    r := Failure(NoResponse);
    requests, sleeps := 0, [];
    var retries := 0;
    while retries <= client.maxRetries
      invariant requests == retries
      invariant 0 <= retries <= (if client.maxRetries < 0 then 0 else client.maxRetries)
      invariant r == Failure(NoResponse)
      invariant sleeps == Backoff(retries)
      invariant forall k :: 0 <= k < retries ==> respond(k).status == 429
      decreases client.maxRetries - retries
    {
      var response := respond(requests);
      requests := requests + 1;
      if response.status == 200 {
        r := DecodeBody(client.requestFormat, response.body);
        return;
      } else if response.status == 429 && retries == client.maxRetries {
        r := Failure(RateLimited);
        return;
      } else if response.status == 429 {
        var delay := InitialDelay * Pow2(retries);
        retries := retries + 1;
        sleeps := sleeps + [delay];
      } else {
        r := Failure(HttpError(response.status));
        return;
      }
    }
  }

  /** n rate-limit responses followed by a 200, with n <= max_retries: the
      request succeeds after n + 1 requests and 2^n - 1 seconds of sleep. */
  method RecoverFromRateLimit(client: GridStatusClient, params: Option<Params>,
                              respond: nat -> Response, n: nat)
    returns (r: Result<Fetched>, requests: nat, slept: nat)
    requires n <= client.maxRetries
    requires forall k :: 0 <= k < n ==> respond(k).status == 429
    requires respond(n).status == 200
    ensures requests == n + 1
    ensures r == DecodeBody(client.requestFormat, respond(n).body)
    ensures slept == Pow2(n) - 1
  {
    var sent, sleeps;
    r, sent, requests, sleeps := Get(client, params, respond);
    BackoffTotal(requests - 1);
    slept := Sum(sleeps);
  }

  /** max_retries + 1 rate-limit responses in a row: the request fails with
      the rate-limit error after exactly that many requests, having slept
      1 + 2 + … + 2^(max_retries - 1) seconds. */
  method ExhaustRetries(client: GridStatusClient, params: Option<Params>, respond: nat -> Response)
    returns (r: Result<Fetched>, requests: nat, slept: nat)
    requires client.maxRetries >= 0
    requires forall k :: 0 <= k <= client.maxRetries ==> respond(k).status == 429
    ensures r == Failure(RateLimited)
    ensures requests == client.maxRetries + 1
    ensures slept == Pow2(client.maxRetries) - 1
  {
    var sent, sleeps;
    r, sent, requests, sleeps := Get(client, params, respond);
    assert respond(requests - 1).status == 429;
    BackoffTotal(requests - 1);
    slept := Sum(sleeps);
  }
}

=== FILE: common.dfy ===
/** Shared value types of the GridStatus client model: optional values, results
    with the client's error conditions, and the powers of two behind the
    rate-limit backoff. */
module Common {

  datatype Option<+T> = None | Some(value: T) {
    function GetOr(default: T): T {
      match this
      case Some(v) => v
      case None => default
    }
  }

  /** Every way a call of the client ends in an exception. */
  datatype Error =
    | MissingApiKey          // no api_key argument and none in the environment
    | BadRequestFormat       // request_format is neither "json" nor "csv"
    | RateLimited            // HTTP 429 after max_retries retries
    | HttpError(status: int) // any status other than 200 and 429
    | NoResponse             // max_retries < 0: the retry loop never runs, so no response exists
    | EmptyData              // the JSON "data" array has no header row
    | TimezoneConflict       // both the deprecated tz and timezone were given
    | MissingMeta            // a page came back without pagination metadata (CSV format)

  datatype Result<+R> = Success(value: R) | Failure(error: Error)

  /** 2^n. */
  function Pow2(n: nat): (r: nat)
    ensures r >= 1
  {
    if n == 0 then 1 else 2 * Pow2(n - 1)
  }

  /** Sum of a sequence of naturals, taken from the back. */
  function Sum(s: seq<nat>): nat {
    if s == [] then 0 else Sum(s[..|s| - 1]) + s[|s| - 1]
  }

  lemma SumSnoc(s: seq<nat>, x: nat)
    ensures Sum(s + [x]) == Sum(s) + x
  {
    assert (s + [x])[..|s|] == s;
  }
}

=== FILE: logging.dfy ===
/** The verbosity gate `log(msg, verbose, level)`: only whether a message is
    printed is modelled, not what is printed. */
module Logging {

  /** The `verbose` argument: a boolean or a level name ("info", "debug", …). */
  datatype Verbose = Flag(on: bool) | Level(name: string)

  /** Whether `log` prints a message of the given level. `True` stands for
      "info"; "debug" prints everything; "info" prints only "info" messages;
      `False` and every other level name print nothing. */
  function Prints(verbose: Verbose, level: string): (p: bool)
    ensures verbose == Flag(false) ==> !p
    ensures verbose == Level("debug") ==> p
    ensures verbose == Flag(true) || verbose == Level("info") ==> (p <==> level == "info")
    ensures p ==> verbose in {Flag(true), Level("info"), Level("debug")}
  {
    var v := if verbose == Flag(true) then Level("info") else verbose;
    v == Level("debug") || (v == Level("info") && level == "info")
  }

  /** `True` and "info" are the same setting. */
  lemma TrueMeansInfo(level: string)
    ensures Prints(Flag(true), level) == Prints(Level("info"), level)
  {
  }
}

=== FILE: normalize.dfy ===
/** The last step of `get_dataset`: find the datetime columns of the merged
    table, parse them as UTC and, when a non-UTC zone was asked for, convert
    them and rename them with a `_local` suffix. Cell values stay abstract;
    what is modelled is each column's label and what kind of values it ends
    up holding. */
module Normalize {
  import opened Common
  import opened Strings
  import opened Client
  import opened Query

  /** Columns that are datetimes whatever the metadata says. */
  const AlwaysDatetimeColumns: seq<string> := ["interval_start_utc", "interval_end_utc"]

  /** What a column holds after normalisation: its raw values, instants
      parsed as UTC, or instants converted to the named zone. */
  datatype Kind = Raw | UtcInstant | LocalInstant(zone: string)

  datatype Column = Column(name: Cell, kind: Kind)

  /** The first metadata entry named like the column, as `next(...)` finds it. */
  function FirstMeta(all: seq<ColumnMeta>, name: Cell): (r: Option<ColumnMeta>)
    ensures r.Some? ==> CStr(r.value.name) == name
    ensures r.Some? ==>
      exists i :: 0 <= i < |all| && r.value == all[i] && (forall j :: 0 <= j < i ==> CStr(all[j].name) != name)
    ensures r.None? <==> forall i :: 0 <= i < |all| ==> CStr(all[i].name) != name
  {
    if all == [] then None
    else if CStr(all[0].name) == name then Some(all[0])
    else FirstMeta(all[1..], name)
  }

  /** The column's metadata flags it as a datetime, or it is one of the
      always-datetime columns. */
  predicate IsDatetime(name: Cell, all: seq<ColumnMeta>)
    ensures IsDatetime(name, all) ==> name.CStr?
  {
    var m := FirstMeta(all, name);
    (m.Some? && m.value.isDatetime) || (name.CStr? && name.s in AlwaysDatetimeColumns)
  }

  /** With metadata names all different, a column is a datetime exactly when
      some entry of that name is flagged or it is an always-datetime column. */
  lemma {:induction false} DatetimeColumnsExactly(name: Cell, all: seq<ColumnMeta>)
    requires forall i, j :: 0 <= i < j < |all| ==> all[i].name != all[j].name
    ensures IsDatetime(name, all) <==>
      (exists i :: 0 <= i < |all| && CStr(all[i].name) == name && all[i].isDatetime)
      || (name.CStr? && name.s in AlwaysDatetimeColumns)
  {
    FlaggedIff(name, all);
  }

  lemma {:induction false} FlaggedIff(name: Cell, all: seq<ColumnMeta>)
    requires forall i, j :: 0 <= i < j < |all| ==> all[i].name != all[j].name
    ensures (FirstMeta(all, name).Some? && FirstMeta(all, name).value.isDatetime) <==>
      (exists i :: 0 <= i < |all| && CStr(all[i].name) == name && all[i].isDatetime)
  {
    if all != [] {
      if CStr(all[0].name) == name {
        forall i | 0 < i < |all|
          ensures CStr(all[i].name) != name
        {
          assert all[0].name != all[i].name;
        }
      } else {
        var rest := all[1..];
        FlaggedIff(name, rest);
        if exists i :: 0 <= i < |all| && CStr(all[i].name) == name && all[i].isDatetime {
          var i :| 0 <= i < |all| && CStr(all[i].name) == name && all[i].isDatetime;
          assert rest[i - 1] == all[i];
        }
      }
    }
  }

  /** The gate on conversion and renaming: a non-UTC deprecated `tz`
      converts every datetime column; a non-UTC `timezone` converts those
      not ending in `_utc`. */
  predicate ConvertsToLocal(name: string, tz: Option<string>, timezone: Option<string>) {
    (Truthy(tz) && tz.value != "UTC")
    || (Truthy(timezone) && timezone.value != "UTC" && !EndsWith(name, "_utc"))
  }

  /** `timezone or tz`. */
  function TargetZone(tz: Option<string>, timezone: Option<string>): string
    requires Truthy(tz) || Truthy(timezone)
  {
    if Truthy(timezone) then timezone.value else tz.value
  }

  /** `name.replace("_utc", "") + "_local"`. */
  function LocalName(name: string): (r: string)
    ensures EndsWith(r, "_local")
  {
    RemoveAll(name, "_utc") + "_local"
  }

  /** A name that is a `_utc`-free stem plus the suffix `_utc` trades the
      suffix for `_local`. */
  lemma LocalNameOfUtcColumn(stem: string)
    requires !Contains(stem, "_utc")
    ensures LocalName(stem + "_utc") == stem + "_local"
  {
    var name := stem + "_utc";
    assert name + "" == name;
    RemoveAllAroundUtc(stem, "");
    assert RemoveAll("", "_utc") == "";
    RemoveAllWithoutMatch(stem, "_utc");
    assert RemoveAll(name, "_utc") == stem;
  }

  /** What normalisation makes of one column of the merged table. */
  function NormalizedColumn(c: Cell, all: seq<ColumnMeta>, tz: Option<string>, timezone: Option<string>): (r: Column)
    // only datetime columns change, and each of them is parsed
    ensures r.kind == Raw <==> !IsDatetime(c, all)
    ensures !IsDatetime(c, all) ==> r.name == c
    // a non-UTC deprecated tz renames every datetime column
    ensures IsDatetime(c, all) && Truthy(tz) && tz.value != "UTC" ==>
      r == Column(CStr(LocalName(c.s)), LocalInstant(TargetZone(tz, timezone)))
    // a non-UTC timezone renames the datetime columns without the _utc suffix
    ensures IsDatetime(c, all) && !Truthy(tz) && Truthy(timezone) && timezone.value != "UTC" ==>
      if EndsWith(c.s, "_utc") then r == Column(c, UtcInstant)
      else r == Column(CStr(LocalName(c.s)), LocalInstant(timezone.value))
    // with no non-UTC zone nothing is renamed
    ensures !(Truthy(tz) && tz.value != "UTC") && !(Truthy(timezone) && timezone.value != "UTC") ==>
      r.name == c && !r.kind.LocalInstant?
  {
    if !IsDatetime(c, all) then Column(c, Raw)
    else if ConvertsToLocal(c.s, tz, timezone) then Column(CStr(LocalName(c.s)), LocalInstant(TargetZone(tz, timezone)))
    else Column(c, UtcInstant)
  }

  /** The column loop of `get_dataset`: `df` is replaced column by column as
      datetime columns are parsed, converted and renamed. */
  method NormalizeColumns(columns: seq<Cell>, all: seq<ColumnMeta>, tz: Option<string>, timezone: Option<string>)
    returns (names: seq<Cell>, kinds: seq<Kind>)
    ensures |names| == |columns| && |kinds| == |columns|
    ensures forall i :: 0 <= i < |columns| ==>
      Column(names[i], kinds[i]) == NormalizedColumn(columns[i], all, tz, timezone)
  {
    names := columns;
    kinds := seq(|columns|, _ => Raw);
    for i := 0 to |columns|
      invariant |names| == |columns| && |kinds| == |columns|
      invariant forall j :: 0 <= j < i ==>
        Column(names[j], kinds[j]) == NormalizedColumn(columns[j], all, tz, timezone)
      invariant forall j :: i <= j < |columns| ==> names[j] == columns[j] && kinds[j] == Raw
    {
      var colName := columns[i];
      if IsDatetime(colName, all) {
        kinds := kinds[i := UtcInstant];
        if ConvertsToLocal(colName.s, tz, timezone) {
          kinds := kinds[i := LocalInstant(TargetZone(tz, timezone))];
          names := names[i := CStr(LocalName(colName.s))];
        }
      }
    }
  }
}

=== FILE: pagination.dfy ===
/** `get_dataset`: reject `tz` together with `timezone`, then request pages
    until one says there is no next page, concatenate the page tables in
    arrival order and normalise the datetime columns. The server is replaced
    by the sequence of outcomes of the successive `get` calls. */
module Pagination {
  import opened Common
  import opened Client
  import opened Query
  import opened Normalize

  /** One page request: the URL and the three values that change from page
      to page; the rest of the params dict comes from the query. */
  datatype Request = Request(url: string, page: int, cursor: Option<string>, filterValue: Value)

  /** The params dict handed to `get` for a request. */
  function SentParams(q: DatasetQuery, r: Request): Params {
    PageParams(q, r.page, r.cursor, r.filterValue)
  }

  /** `get` adds to a page's params exactly `return_format`, and for JSON
      `json_schema`, since the page loop never sets either. */
  lemma SentParamsDefaulted(q: DatasetQuery, r: Request, format: Format)
    ensures var p := SentParams(q, r);
      var d := WithDefaultFormat(p, format);
      && d.Keys == p.Keys + {ReturnFormat} + (if format == Json then {JsonSchema} else {})
      && d[ReturnFormat] == PStr(FormatName(format))
      && forall k :: k in p ==> d[k] == p[k]
  {
    PageParamsLeaveFormatToGet(q, r.page, r.cursor, r.filterValue);
  }

  /** How `get_dataset` ends: with the normalised table (its column kinds
      and `total_rows` beside it), with an error, or still paging when the
      given responses run out while the last one announced a next page. */
  datatype Outcome =
    | Done(table: Table, kinds: seq<Kind>, totalRows: nat)
    | Failed(error: Error)
    | StillPaging

  /** This `get` outcome stops the page loop: an exception, a response
      without `meta` (CSV), or a `hasNextPage` that is false or missing. */
  predicate EndsPaging(p: Result<Fetched>) {
    p.Failure? || p.value.info.None? || p.value.info.value.meta.hasNextPage != Some(true)
  }

  /** The number of pages `get_dataset` requests: up to and including the
      first that ends the loop, or all of them. */
  function Consumed(pages: seq<Result<Fetched>>): (n: nat)
    ensures n <= |pages|
    ensures |pages| > 0 ==> n > 0
    ensures n < |pages| ==> EndsPaging(pages[n - 1])
  {
    if pages == [] then 0
    else if EndsPaging(pages[0]) then 1
    else 1 + Consumed(pages[1..])
  }

  /** Every page before the last one requested announces a next page. */
  lemma {:induction false} ConsumedContinuesBefore(pages: seq<Result<Fetched>>)
    ensures forall k :: 0 <= k < Consumed(pages) - 1 ==> !EndsPaging(pages[k])
  {
    if pages != [] && !EndsPaging(pages[0]) {
      var rest := pages[1..];
      ConsumedContinuesBefore(rest);
      forall k | 1 <= k < Consumed(pages) - 1
        ensures !EndsPaging(pages[k])
      {
        assert pages[k] == rest[k - 1];
      }
    }
  }

  /** The loop stops at page m exactly when no earlier page ends it and page
      m does, or the pages run out. */
  lemma {:induction false} ConsumedExactly(pages: seq<Result<Fetched>>, m: nat)
    requires 0 < m <= |pages|
    requires forall k :: 0 <= k < m - 1 ==> !EndsPaging(pages[k])
    requires m == |pages| || EndsPaging(pages[m - 1])
    ensures Consumed(pages) == m
  {
    if m > 1 {
      assert !EndsPaging(pages[0]);
      var rest := pages[1..];
      forall k | 0 <= k < m - 2
        ensures !EndsPaging(rest[k])
      {
        assert rest[k] == pages[k + 1];
      }
      assert m - 1 == |rest| || EndsPaging(rest[m - 2]);
      ConsumedExactly(rest, m - 1);
    }
  }

  /** Page k, requested, either ends the loop, which then stopped there, or
      is followed by another requested page or by the end of the pages. */
  lemma ConsumedStep(pages: seq<Result<Fetched>>, k: nat)
    requires k < Consumed(pages)
    ensures EndsPaging(pages[k]) ==> Consumed(pages) == k + 1
    ensures !EndsPaging(pages[k]) ==> k + 1 < Consumed(pages) || k + 1 == |pages|
  {
    ConsumedContinuesBefore(pages);
  }

  /** The loop ran out of pages: all n were requested and the last one
      still announced a next page. */
  predicate RunsOut(pages: seq<Result<Fetched>>, n: nat) {
    n == |pages| && (n == 0 || !EndsPaging(pages[n - 1]))
  }

  /** The loop runs out of pages exactly when none of them ends it. */
  lemma RunsOutIff(pages: seq<Result<Fetched>>)
    ensures RunsOut(pages, Consumed(pages)) <==> forall k :: 0 <= k < |pages| ==> !EndsPaging(pages[k])
  {
    ConsumedContinuesBefore(pages);
  }

  /** The cursor sent with page k (from 0): "" first, then the `cursor` of
      the previous page's `meta`, whatever it is. */
  function CursorBefore(pages: seq<Result<Fetched>>, k: nat): Option<string>
    requires k <= |pages|
  {
    if k == 0 then Some("")
    else
      var p := pages[k - 1];
      if p.Success? && p.value.info.Some? then p.value.info.value.meta.cursor else None
  }

  /** The requests for the first n pages. */
  function RequestsUpTo(url: string, q: DatasetQuery, pages: seq<Result<Fetched>>, n: nat): (rs: seq<Request>)
    requires n <= |pages|
    ensures |rs| == n
  {
    if n == 0 then [] else RequestsUpTo(url, q, pages, n - 1) + [Request(url, n, CursorBefore(pages, n - 1), FilterValueAt(q, n - 1))]
  }

  /** Request k (from 0) carries page number k + 1, the cursor of page k - 1
      and the `filter_value` of that point. */
  lemma {:induction false} RequestsUpToAt(url: string, q: DatasetQuery, pages: seq<Result<Fetched>>, n: nat, k: nat)
    requires k < n <= |pages|
    ensures RequestsUpTo(url, q, pages, n)[k] == Request(url, k + 1, CursorBefore(pages, k), FilterValueAt(q, k))
  {
    if k < n - 1 {
      RequestsUpToAt(url, q, pages, n - 1, k);
    }
  }

  /** The `dataset_metadata` held after n pages. */
  function MetadataBefore(pages: seq<Result<Fetched>>, n: nat): Option<DatasetMetadata>
    requires n <= |pages|
  {
    if n == 0 then None
    else
      var p := pages[n - 1];
      if p.Success? && p.value.info.Some? then Some(p.value.info.value.datasetMetadata) else None
  }

  /** The table a `get` outcome carries, empty for a failure. */
  function PageTable(p: Result<Fetched>): Table {
    if p.Success? then p.value.table else Table([], [])
  }

  /** `dfs` after n pages: their tables in arrival order. */
  function Tables(pages: seq<Result<Fetched>>, n: nat): (ts: seq<Table>)
    requires n <= |pages|
    ensures |ts| == n
  {
    if n == 0 then [] else Tables(pages, n - 1) + [PageTable(pages[n - 1])]
  }

  lemma {:induction false} TablesAt(pages: seq<Result<Fetched>>, n: nat, k: nat)
    requires k < n <= |pages|
    ensures Tables(pages, n)[k] == PageTable(pages[k])
  {
    if k < n - 1 {
      TablesAt(pages, n - 1, k);
    }
  }

  /** The rows of the tables one after the other, as `pd.concat` stacks them. */
  function Flatten(ts: seq<Table>): seq<Row> {
    if ts == [] then [] else Flatten(ts[..|ts| - 1]) + ts[|ts| - 1].rows
  }

  /** `total_rows`: the sum of the page lengths. */
  function TotalRows(ts: seq<Table>): nat {
    if ts == [] then 0 else TotalRows(ts[..|ts| - 1]) + |ts[|ts| - 1].rows|
  }

  lemma TotalRowsSnoc(ts: seq<Table>, t: Table)
    ensures TotalRows(ts + [t]) == TotalRows(ts) + |t.rows|
  {
    assert (ts + [t])[..|ts|] == ts;
  }

  /** The merged table has as many rows as the pages together. */
  lemma {:induction false} FlattenLength(ts: seq<Table>)
    ensures |Flatten(ts)| == TotalRows(ts)
  {
    if ts != [] {
      FlattenLength(ts[..|ts| - 1]);
    }
  }

  /** Concatenation keeps arrival order: the rows of earlier pages come
      first, each page's rows in their own order. */
  lemma {:induction false} FlattenAppend(a: seq<Table>, b: seq<Table>)
    ensures Flatten(a + b) == Flatten(a) + Flatten(b)
    decreases |b|
  {
    if b == [] {
      assert a + b == a;
    } else {
      var init := b[..|b| - 1];
      assert (a + b)[..|a + b| - 1] == a + init;
      assert (a + b)[|a + b| - 1] == b[|b| - 1];
      FlattenAppend(a, init);
    }
  }

  /** `pd.concat(dfs).reset_index(drop=True)`: the header of the first page,
      then all rows in arrival order. */
  function Concat(dfs: seq<Table>): Table {
    Table(if dfs == [] then [] else dfs[0].columns, Flatten(dfs))
  }

  /** The header of the first page. */
  function FirstColumns(pages: seq<Result<Fetched>>): seq<Cell> {
    if pages == [] then [] else PageTable(pages[0]).columns
  }

  /** `dataset_metadata.get("all_columns", [])` of page n - 1. */
  function LastColumnMeta(pages: seq<Result<Fetched>>, n: nat): seq<ColumnMeta> {
    if 0 < n <= |pages| && pages[n - 1].Success? && pages[n - 1].value.info.Some? then
      pages[n - 1].value.info.value.datasetMetadata.allColumns.GetOr([])
    else []
  }

  /** What one more page adds to the state of the page loop. */
  lemma PageStep(url: string, q: DatasetQuery, pages: seq<Result<Fetched>>, n: nat)
    requires n < |pages|
    ensures RequestsUpTo(url, q, pages, n + 1)
            == RequestsUpTo(url, q, pages, n) + [Request(url, n + 1, CursorBefore(pages, n), FilterValueAt(q, n))]
    ensures FilterValueAt(q, n + 1) == NextFilterValue(q, FilterValueAt(q, n))
    ensures Tables(pages, n + 1) == Tables(pages, n) + [PageTable(pages[n])]
    ensures TotalRows(Tables(pages, n + 1)) == TotalRows(Tables(pages, n)) + |PageTable(pages[n]).rows|
  {
    NextFilterValueIdempotent(q, q.filterValue);
    TotalRowsSnoc(Tables(pages, n), PageTable(pages[n]));
  }

  /** How page k ends the loop when it does: the error it raises, or none
      when it is a JSON page whose `hasNextPage` is false or missing. */
  function PageError(p: Result<Fetched>): Option<Error> {
    if p.Failure? then Some(p.error)
    else if p.value.info.None? then Some(MissingMeta)
    else None
  }

  /** The `while has_next_page` loop of `get_dataset`: request pages with
      the page number, the previous page's cursor and the current
      `filter_value` until one ends the loop or the responses run out. */
  method FetchPages(url: string, q: DatasetQuery, pages: seq<Result<Fetched>>)
    returns (requests: seq<Request>, failure: Option<Error>, hasNextPage: bool,
             dfs: seq<Table>, totalRows: nat, allColumns: seq<ColumnMeta>)
    ensures |requests| == Consumed(pages)
    ensures requests == RequestsUpTo(url, q, pages, |requests|)
    // the loop stops at the first page that raises
    ensures failure == (if requests == [] then None else PageError(pages[|requests| - 1]))
    // it runs out of responses exactly when none of them ends it
    ensures failure.None? ==> (hasNextPage <==> RunsOut(pages, |requests|))
    ensures failure.None? ==> dfs == Tables(pages, |requests|) && totalRows == TotalRows(dfs)
    ensures failure.None? ==> allColumns == LastColumnMeta(pages, |requests|)
  {
    requests := [];
    failure := None;
    allColumns := [];
    var page := 1;
    hasNextPage := true;
    dfs := [];
    totalRows := 0;
    var cursor: Option<string> := Some("");
    var datasetMetadata: Option<DatasetMetadata> := None;
    var filterValue := q.filterValue;
    while hasNextPage && page <= |pages|
      invariant 1 <= page <= |pages| + 1
      invariant failure.None?
      invariant page - 1 <= Consumed(pages)
      invariant hasNextPage ==> page - 1 < Consumed(pages) || page - 1 == |pages|
      invariant hasNextPage && page > 1 ==> !EndsPaging(pages[page - 2])
      invariant !hasNextPage ==> page > 1 && page - 1 == Consumed(pages) && EndsPaging(pages[page - 2])
      invariant page > 1 ==> pages[page - 2].Success? && pages[page - 2].value.info.Some?
      invariant requests == RequestsUpTo(url, q, pages, page - 1)
      invariant cursor == CursorBefore(pages, page - 1)
      invariant filterValue == FilterValueAt(q, page - 1)
      invariant dfs == Tables(pages, page - 1)
      invariant totalRows == TotalRows(dfs)
      invariant datasetMetadata == MetadataBefore(pages, page - 1)
      decreases |pages| - page
    {
      PageStep(url, q, pages, page - 1);
      ConsumedStep(pages, page - 1);
      requests := requests + [Request(url, page, cursor, filterValue)];
      filterValue := NextFilterValue(q, filterValue);
      failure := PageError(pages[page - 1]);
      if failure.Some? {
        return;
      }
      var fetched := pages[page - 1].value;
      var meta := fetched.info.value.meta;
      hasNextPage := meta.hasNextPage == Some(true);
      cursor := meta.cursor;
      totalRows := totalRows + |fetched.table.rows|;
      dfs := dfs + [fetched.table];
      datasetMetadata := Some(fetched.info.value.datasetMetadata);
      page := page + 1;
    }
    if datasetMetadata.Some? {
      allColumns := datasetMetadata.value.allColumns.GetOr([]);
    }
  }

  /** What `get_dataset` returns after the loop stopped on page n: every
      page's rows in arrival order, the row count, and the first page's
      columns normalised against the last page's column metadata. */
  predicate AssembledFrom(outcome: Outcome, pages: seq<Result<Fetched>>, n: nat,
                          tz: Option<string>, timezone: Option<string>)
    requires n <= |pages|
  {
    && outcome.Done?
    && outcome.table.rows == Flatten(Tables(pages, n))
    && outcome.totalRows == TotalRows(Tables(pages, n)) == |outcome.table.rows|
    && |outcome.table.columns| == |FirstColumns(pages)| == |outcome.kinds|
    && forall i :: 0 <= i < |FirstColumns(pages)| ==>
         Column(outcome.table.columns[i], outcome.kinds[i])
         == NormalizedColumn(FirstColumns(pages)[i], LastColumnMeta(pages, n), tz, timezone)
  }

  /** The tail of `get_dataset` once the loop has stopped on a last page:
      concatenate the page tables, then normalise the datetime columns
      against the last page's column metadata. */
  method Assemble(pages: seq<Result<Fetched>>, n: nat, dfs: seq<Table>, totalRows: nat,
                  allColumns: seq<ColumnMeta>, tz: Option<string>, timezone: Option<string>)
    returns (outcome: Outcome)
    requires 0 < n <= |pages|
    requires dfs == Tables(pages, n) && totalRows == TotalRows(dfs)
    requires allColumns == LastColumnMeta(pages, n)
    ensures AssembledFrom(outcome, pages, n, tz, timezone)
  {
    TablesAt(pages, n, 0);
    FlattenLength(dfs);
    var df := Concat(dfs);
    var names, kinds := NormalizeColumns(df.columns, allColumns, tz, timezone);
    outcome := Done(Table(names, df.rows), kinds, totalRows);
  }

  /** `client.get_dataset(...)` with `pages[k]` the outcome of the k-th `get`
      call. Returns the outcome and the requests made; the params dict of a
      request is `SentParams(q, r)`, and `RequestsUpToAt` spells out request k. */
  method GetDataset(client: GridStatusClient, q: DatasetQuery, pages: seq<Result<Fetched>>)
    returns (outcome: Outcome, requests: seq<Request>)
    // tz together with timezone fails before any request
    ensures TimezonesConflict(q.tz, q.timezone) ==> outcome == Failed(TimezoneConflict) && requests == []
    // otherwise pages are requested up to the first that ends the loop
    ensures !TimezonesConflict(q.tz, q.timezone) ==>
      && |requests| == Consumed(pages)
      && requests == RequestsUpTo(QueryUrl(client.host, q.dataset), q, pages, |requests|)
    ensures outcome.StillPaging? <==>
      !TimezonesConflict(q.tz, q.timezone) && forall k :: 0 <= k < |pages| ==> !EndsPaging(pages[k])
    // a page that raises fails the whole call, and nothing is returned
    ensures (!TimezonesConflict(q.tz, q.timezone) && |requests| > 0 && PageError(pages[|requests| - 1]).Some?)
            ==> outcome == Failed(PageError(pages[|requests| - 1]).value)
    ensures outcome.Failed? <==>
      TimezonesConflict(q.tz, q.timezone) || (|requests| > 0 && PageError(pages[|requests| - 1]).Some?)
    // a loop that stops on a page without error always yields a result
    ensures outcome.Done? <==>
      && !TimezonesConflict(q.tz, q.timezone)
      && |requests| > 0
      && PageError(pages[|requests| - 1]).None?
      && EndsPaging(pages[|requests| - 1])
    // otherwise the result is assembled from the pages read
    ensures outcome.Done? ==> 0 < |requests| <= |pages| && AssembledFrom(outcome, pages, |requests|, q.tz, q.timezone)
  {
    if TimezonesConflict(q.tz, q.timezone) {
      outcome := Failed(TimezoneConflict);
      requests := [];
      return;
    }
    var failure, hasNextPage, dfs, totalRows, allColumns;
    RunsOutIff(pages);
    requests, failure, hasNextPage, dfs, totalRows, allColumns := FetchPages(QueryUrl(client.host, q.dataset), q, pages);
    if failure.Some? {
      outcome := Failed(failure.value);
    } else if hasNextPage {
      outcome := StillPaging;
    } else {
      outcome := Assemble(pages, |requests|, dfs, totalRows, allColumns, q.tz, q.timezone);
    }
  }
}

=== FILE: query.dfy ===
/** The arguments of `get_dataset` and the query parameters built from them
    for each page request, plus the check that rejects `tz` together with
    `timezone`. */
module Query {
  import opened Common
  import opened Strings
  import opened Client

  /** `resample_by`, documented as a column name or a list of them. */
  datatype ColumnSpec = Single(column: string) | Several(columns: seq<string>)

  /** The arguments of `get_dataset` that reach the request. `start` and
      `end` are already normalised date strings; `filterValue` is a string,
      a number, a list or `PNone`. */
  datatype DatasetQuery = DatasetQuery(
    dataset: string,
    start: Option<string>,
    end: Option<string>,
    columns: Option<seq<string>>,
    filterColumn: Option<string>,
    filterValue: Value,
    filterOperator: string,
    publishTime: Option<string>,
    resample: Option<string>,
    resampleBy: Option<ColumnSpec>,
    resampleFunction: string,
    limit: Option<int>,
    pageSize: Option<int>,
    tz: Option<string>,
    timezone: Option<string>,
    useCursorPagination: bool)

  /** `get_dataset(dataset)` with every other argument left at its default. */
  function DefaultQuery(dataset: string): DatasetQuery {
    DatasetQuery(dataset, None, None, None, None, PNone, "=", None, None, None, "mean",
                 None, None, None, None, true)
  }

  /** Python truthiness of an optional string: present and non-empty. */
  predicate Truthy(o: Option<string>) {
    o.Some? && o.value != ""
  }

  /** `get_dataset` raises before any request when both the deprecated `tz`
      and `timezone` are truthy. */
  predicate TimezonesConflict(tz: Option<string>, timezone: Option<string>) {
    Truthy(tz) && Truthy(timezone)
  }

  function QueryUrl(host: string, dataset: string): string {
    host + "/datasets/" + dataset + "/query"
  }

  function OptStr(o: Option<string>): Value {
    if o.Some? then PStr(o.value) else PNone
  }

  function OptInt(o: Option<int>): Value {
    if o.Some? then PInt(o.value) else PNone
  }

  /** The guard `filter_column is not None or filter_value != ""`. */
  predicate SendsFilter(q: DatasetQuery, filterValue: Value) {
    q.filterColumn.Some? || filterValue != PStr("")
  }

  /** A list filter value under the "in" operator is sent comma-joined. */
  function SentFilterValue(q: DatasetQuery, filterValue: Value): Value {
    if filterValue.PList? && q.filterOperator == "in" then PStr(Join(filterValue.items)) else filterValue
  }

  /** `filter_value` after one pass of the page loop, which reassigns it. */
  function NextFilterValue(q: DatasetQuery, filterValue: Value): Value {
    if SendsFilter(q, filterValue) then SentFilterValue(q, filterValue) else filterValue
  }

  /** The value of `filter_value` when the page with index k (from 0) is built. */
  function FilterValueAt(q: DatasetQuery, k: nat): Value {
    if k == 0 then q.filterValue else NextFilterValue(q, q.filterValue)
  }

  /** Reassigning `filter_value` is stable after the first page. */
  lemma NextFilterValueIdempotent(q: DatasetQuery, filterValue: Value)
    ensures NextFilterValue(q, NextFilterValue(q, filterValue)) == NextFilterValue(q, filterValue)
  {
  }

  /** The "in" list comes back from the comma-joined parameter when no item
      holds a comma. */
  lemma InListRoundTrip(q: DatasetQuery, items: seq<string>)
    requires q.filterOperator == "in" && items != []
    requires forall i :: 0 <= i < |items| ==> ',' !in items[i]
    ensures SentFilterValue(q, PList(items)).PStr?
    ensures Split(SentFilterValue(q, PList(items)).s) == items
  {
    SplitJoin(items);
  }

  /** `",".join(resample_by)` as written: a single column name is a Python
      string, so the join runs over its characters. */
  function ResampleByAsWritten(spec: ColumnSpec): (v: Value)
    ensures v.PStr?
  {
    match spec
    case Several(cols) => PStr(Join(cols))
    case Single(col) => PStr(Join(Characters(col)))
  }

  /** A single column sent as written: "market" becomes "m,a,r,k,e,t". */
  lemma ResampleBySingleColumnSplit()
    ensures ResampleByAsWritten(Single("market")) == PStr("m,a,r,k,e,t")
    ensures ResampleByAsWritten(Single("market")) != PStr("market")
  {
    var chars := Characters("market");
    assert chars == ["m", "a", "r", "k", "e", "t"];
    JoinMarketCharacters();
  }

  /** The comma-join of the characters of "market". */
  lemma JoinMarketCharacters()
    ensures Join(["m", "a", "r", "k", "e", "t"]) == "m,a,r,k,e,t"
  {
    calc {
      Join(["m", "a", "r", "k", "e", "t"]);
      "m" + "," + Join(["a", "r", "k", "e", "t"]);
      "m" + "," + "a" + "," + Join(["r", "k", "e", "t"]);
      "m" + "," + "a" + "," + "r" + "," + Join(["k", "e", "t"]);
      "m" + "," + "a" + "," + "r" + "," + "k" + "," + Join(["e", "t"]);
      "m" + "," + "a" + "," + "r" + "," + "k" + "," + "e" + "," + Join(["t"]);
      "m,a,r,k,e,t";
    }
  }

  /** `resample_by` as intended: one column name is sent as it is, a list is
      comma-joined. */
  function ResampleByParam(spec: ColumnSpec): (v: Value)
    ensures v.PStr?
  {
    match spec
    case Single(col) => PStr(col)
    case Several(cols) => PStr(Join(cols))
  }

  /** Splitting the intended parameter on commas recovers the requested
      columns, for one column and for a non-empty list. */
  lemma ResampleByParamRoundTrip(spec: ColumnSpec)
    requires spec.Several? ==> spec.columns != []
    requires spec.Single? ==> ',' !in spec.column
    requires spec.Several? ==> forall i :: 0 <= i < |spec.columns| ==> ',' !in spec.columns[i]
    ensures Split(ResampleByParam(spec).s) == (if spec.Single? then [spec.column] else spec.columns)
  {
    match spec
    case Single(col) => SplitNoComma(col);
    case Several(cols) => SplitJoin(cols);
  }

  /** The keys every page request carries. */
  predicate IsBaseKey(k: Key) {
    !(k.Cursor? || k.FilterColumn? || k.FilterValue? || k.FilterOperator? || k.Columns?
      || k.ReturnFormat? || k.JsonSchema?)
  }

  predicate IsFilterKey(k: Key) {
    k.FilterColumn? || k.FilterValue? || k.FilterOperator?
  }

  /** The literal dict at the top of the page loop; `resample_by` goes out
      as written (see `ResampleByAsWritten`). */
  function BaseParams(q: DatasetQuery, page: int): (r: Params)
    ensures forall k :: k in r <==> IsBaseKey(k)
    ensures Page in r && r[Page] == PInt(page)
    ensures Limit in r && r[Limit] == OptInt(q.limit)
  {
    map[
      StartTime := OptStr(q.start),
      EndTime := OptStr(q.end),
      Limit := OptInt(q.limit),
      Page := PInt(page),
      PageSize := OptInt(q.pageSize),
      ResampleFrequency := OptStr(q.resample),
      ResampleBy := if q.resampleBy.Some? then ResampleByAsWritten(q.resampleBy.value) else PNone,
      ResampleFunction := if Truthy(q.resample) then PStr(q.resampleFunction) else PNone,
      PublishTime := OptStr(q.publishTime),
      Timezone := OptStr(q.timezone)]
  }

  /** The other arguments of the literal are passed through, None where not
      given. */
  lemma BaseParamsPassThrough(q: DatasetQuery, page: int)
    ensures var r := BaseParams(q, page);
      && StartTime in r && r[StartTime] == OptStr(q.start)
      && EndTime in r && r[EndTime] == OptStr(q.end)
      && PageSize in r && r[PageSize] == OptInt(q.pageSize)
      && PublishTime in r && r[PublishTime] == OptStr(q.publishTime)
      && Timezone in r && r[Timezone] == OptStr(q.timezone)
  {
  }

  /** The three filter keys, added together. */
  function WithFilter(p: Params, q: DatasetQuery, filterValue: Value): (r: Params)
    ensures forall k :: k in r <==> k in p || IsFilterKey(k)
    ensures FilterColumn in r && FilterValue in r && FilterOperator in r
    ensures r[FilterColumn] == OptStr(q.filterColumn)
    ensures r[FilterValue] == SentFilterValue(q, filterValue)
    ensures r[FilterOperator] == PStr(q.filterOperator)
    ensures forall k :: k in p && !IsFilterKey(k) ==> r[k] == p[k]
  {
    p[FilterColumn := OptStr(q.filterColumn)]
     [FilterValue := SentFilterValue(q, filterValue)]
     [FilterOperator := PStr(q.filterOperator)]
  }

  /** The params dict after the optional cursor and filter keys. */
  function CursorAndFilter(q: DatasetQuery, page: int, cursor: Option<string>, filterValue: Value): (r: Params)
    ensures forall k :: k in BaseParams(q, page) ==> k in r && r[k] == BaseParams(q, page)[k]
    ensures Columns !in r
  {
    var base := BaseParams(q, page);
    var withCursor := if q.useCursorPagination then base[Cursor := OptStr(cursor)] else base;
    if SendsFilter(q, filterValue) then WithFilter(withCursor, q, filterValue) else withCursor
  }

  /** The params dict built for page `page` with the current `cursor` and
      `filter_value`. */
  function PageParams(q: DatasetQuery, page: int, cursor: Option<string>, filterValue: Value): (r: Params)
    // the base keys keep their values: the page number is sent, `limit` is only forwarded
    ensures forall k :: k in BaseParams(q, page) ==> k in r && r[k] == BaseParams(q, page)[k]
    ensures Page in r && r[Page] == PInt(page)
    ensures Limit in r && r[Limit] == OptInt(q.limit)
    // the column subset is sent comma-joined, and only when given
    ensures Columns in r <==> q.columns.Some?
    ensures q.columns.Some? ==> r[Columns] == PStr(Join(q.columns.value))
  {
    var p := CursorAndFilter(q, page, cursor, filterValue);
    if q.columns.Some? then p[Columns := PStr(Join(q.columns.value))] else p
  }

  /** The cursor is sent only in cursor mode, and then it is the current one. */
  lemma CursorAndFilterCursor(q: DatasetQuery, page: int, cursor: Option<string>, filterValue: Value)
    ensures var r := CursorAndFilter(q, page, cursor, filterValue);
      && (Cursor in r <==> q.useCursorPagination)
      && (q.useCursorPagination ==> r[Cursor] == OptStr(cursor))
  {
    assert !IsBaseKey(Cursor);
  }

  /** The three filter keys travel together: all present exactly when the
      filter guard holds, with the column, the (joined) value and the operator. */
  lemma CursorAndFilterFilter(q: DatasetQuery, page: int, cursor: Option<string>, filterValue: Value)
    ensures var r := CursorAndFilter(q, page, cursor, filterValue);
      && (FilterColumn in r <==> SendsFilter(q, filterValue))
      && (FilterValue in r <==> SendsFilter(q, filterValue))
      && (FilterOperator in r <==> SendsFilter(q, filterValue))
      && (SendsFilter(q, filterValue) ==>
        && r[FilterColumn] == OptStr(q.filterColumn)
        && r[FilterValue] == SentFilterValue(q, filterValue)
        && r[FilterOperator] == PStr(q.filterOperator))
  {
    var base := BaseParams(q, page);
    assert FilterColumn !in base && FilterValue !in base && FilterOperator !in base;
  }

  /** The keys of the dict after the cursor and filter steps: the base keys,
      `cursor` in cursor mode and the filter keys under the guard. */
  lemma CursorAndFilterKeys(q: DatasetQuery, page: int, cursor: Option<string>, filterValue: Value)
    ensures forall k :: k in CursorAndFilter(q, page, cursor, filterValue) <==>
      || IsBaseKey(k)
      || (k == Cursor && q.useCursorPagination)
      || (IsFilterKey(k) && SendsFilter(q, filterValue))
  {
    var base := BaseParams(q, page);
    var withCursor := if q.useCursorPagination then base[Cursor := OptStr(cursor)] else base;
    assert forall k :: k in withCursor <==> IsBaseKey(k) || (k == Cursor && q.useCursorPagination);
  }

  /** The keys of the params dict of one page, and no others. */
  lemma PageParamsKeys(q: DatasetQuery, page: int, cursor: Option<string>, filterValue: Value)
    ensures forall k :: k in PageParams(q, page, cursor, filterValue) <==>
      || IsBaseKey(k)
      || (k == Cursor && q.useCursorPagination)
      || (IsFilterKey(k) && SendsFilter(q, filterValue))
      || (k == Columns && q.columns.Some?)
  {
    CursorAndFilterKeys(q, page, cursor, filterValue);
  }

  /** A page's params carry neither `return_format` nor `json_schema`, so
      `get` fills both in (`WithDefaultFormat`). */
  lemma PageParamsLeaveFormatToGet(q: DatasetQuery, page: int, cursor: Option<string>, filterValue: Value)
    ensures ReturnFormat !in PageParams(q, page, cursor, filterValue)
    ensures JsonSchema !in PageParams(q, page, cursor, filterValue)
  {
    PageParamsKeys(q, page, cursor, filterValue);
  }

  /** Adding the column subset leaves every other key as it was. */
  lemma PageParamsOtherKeys(q: DatasetQuery, page: int, cursor: Option<string>, filterValue: Value, k: Key)
    requires k != Columns
    ensures var p := CursorAndFilter(q, page, cursor, filterValue);
      var r := PageParams(q, page, cursor, filterValue);
      && (k in r <==> k in p)
      && (k in r ==> r[k] == p[k])
  {
  }

  /** The cursor is sent only in cursor mode, and then it is the current one. */
  lemma PageParamsCursor(q: DatasetQuery, page: int, cursor: Option<string>, filterValue: Value)
    ensures var r := PageParams(q, page, cursor, filterValue);
      && (Cursor in r <==> q.useCursorPagination)
      && (q.useCursorPagination ==> r[Cursor] == OptStr(cursor))
  {
    CursorAndFilterCursor(q, page, cursor, filterValue);
    PageParamsOtherKeys(q, page, cursor, filterValue, Cursor);
  }

  /** The three filter keys of the sent params, as for `CursorAndFilter`. */
  lemma PageParamsFilter(q: DatasetQuery, page: int, cursor: Option<string>, filterValue: Value)
    ensures var r := PageParams(q, page, cursor, filterValue);
      && (FilterColumn in r <==> SendsFilter(q, filterValue))
      && (FilterValue in r <==> SendsFilter(q, filterValue))
      && (FilterOperator in r <==> SendsFilter(q, filterValue))
      && (SendsFilter(q, filterValue) ==>
        && r[FilterColumn] == OptStr(q.filterColumn)
        && r[FilterValue] == SentFilterValue(q, filterValue)
        && r[FilterOperator] == PStr(q.filterOperator))
  {
    CursorAndFilterFilter(q, page, cursor, filterValue);
    PageParamsOtherKeys(q, page, cursor, filterValue, FilterColumn);
    PageParamsOtherKeys(q, page, cursor, filterValue, FilterValue);
    PageParamsOtherKeys(q, page, cursor, filterValue, FilterOperator);
  }

  /** The resampling parameters: the function is sent only with a non-empty
      frequency. */
  lemma PageParamsResampling(q: DatasetQuery, page: int, cursor: Option<string>, filterValue: Value)
    ensures var r := PageParams(q, page, cursor, filterValue);
      && ResampleFrequency in r && ResampleFunction in r && ResampleBy in r
      && r[ResampleFrequency] == OptStr(q.resample)
      && r[ResampleFunction] == (if Truthy(q.resample) then PStr(q.resampleFunction) else PNone)
      && r[ResampleBy] == (if q.resampleBy.Some? then ResampleByAsWritten(q.resampleBy.value) else PNone)
  {
    var base := BaseParams(q, page);
    assert ResampleFrequency in base && ResampleFunction in base && ResampleBy in base;
  }

  /** A list of comma-free column names given as `resample_by` reaches the
      server as a string that splits back into the list. */
  lemma PageParamsResampleByList(q: DatasetQuery, page: int, cursor: Option<string>, filterValue: Value)
    requires q.resampleBy.Some? && q.resampleBy.value.Several? && q.resampleBy.value.columns != []
    requires forall i :: 0 <= i < |q.resampleBy.value.columns| ==> ',' !in q.resampleBy.value.columns[i]
    ensures var r := PageParams(q, page, cursor, filterValue);
      ResampleBy in r && r[ResampleBy].PStr? && Split(r[ResampleBy].s) == q.resampleBy.value.columns
  {
    PageParamsResampling(q, page, cursor, filterValue);
    SplitJoin(q.resampleBy.value.columns);
  }

  /** With the default `filter_value=None` the guard `!= ""` holds, so even a
      query without any filter puts the three filter keys in the params
      dict, all but the operator as None (which `requests` then leaves out
      of the query string). */
  lemma DefaultQueryHasFilterKeys(dataset: string, page: int, cursor: Option<string>)
    ensures var r := PageParams(DefaultQuery(dataset), page, cursor, DefaultQuery(dataset).filterValue);
      && FilterValue in r && r[FilterValue] == PNone
      && r[FilterColumn] == PNone
      && r[FilterOperator] == PStr("=")
  {
    PageParamsFilter(DefaultQuery(dataset), page, cursor, DefaultQuery(dataset).filterValue);
  }

  /** An empty "in" list joins to "", so from the second page on the guard
      fails and the filter keys are no longer sent. */
  lemma EmptyInListDropsFilterAfterFirstPage(q: DatasetQuery, cursor: Option<string>)
    requires q.filterColumn.None? && q.filterValue == PList([]) && q.filterOperator == "in"
    ensures FilterValue in PageParams(q, 1, cursor, FilterValueAt(q, 0))
    ensures FilterValue !in PageParams(q, 2, cursor, FilterValueAt(q, 1))
  {
    PageParamsFilter(q, 1, cursor, FilterValueAt(q, 0));
    PageParamsFilter(q, 2, cursor, FilterValueAt(q, 1));
  }
}

=== FILE: strings.dfy ===
/** The string operations the client uses: ASCII lower-casing, substring
    search (`in`), `str.endswith`, `str.replace(pat, "")`, `",".join` and,
    as the inverse of the join, a split on commas. */
module Strings {

  /** `str.lower()` on one character, restricted to ASCII letters. */
  function Lower(c: char): char {
    if 'A' <= c <= 'Z' then (c as int - 'A' as int + 'a' as int) as char else c
  }

  function LowerStr(s: string): (r: string)
    ensures |r| == |s|
    ensures forall i :: 0 <= i < |s| ==> r[i] == Lower(s[i])
  {
    if s == [] then [] else [Lower(s[0])] + LowerStr(s[1..])
  }

  /** Python's `needle in hay` for strings. */
  predicate Contains(hay: string, needle: string) {
    needle <= hay || (hay != [] && Contains(hay[1..], needle))
  }

  predicate EndsWith(s: string, suffix: string) {
    |suffix| <= |s| && s[|s| - |suffix|..] == suffix
  }

  /** `s.replace(pat, "")`: scans left to right and drops every
      non-overlapping occurrence of `pat`. */
  function RemoveAll(s: string, pat: string): (r: string)
    requires pat != []
    ensures |r| <= |s|
    decreases |s|
  {
    if s == [] then []
    else if pat <= s then RemoveAll(s[|pat|..], pat)
    else [s[0]] + RemoveAll(s[1..], pat)
  }

  lemma {:induction false} RemoveAllWithoutMatch(s: string, pat: string)
    requires pat != [] && !Contains(s, pat)
    ensures RemoveAll(s, pat) == s
    decreases |s|
  {
    if s != [] {
      RemoveAllWithoutMatch(s[1..], pat);
    }
  }

  /** No occurrence of "_utc" can start inside `a` and run into a following
      "_utc", so removing "_utc" from `a + "_utc" + b` removes it from each
      side separately: every occurrence disappears, in order. */
  lemma {:induction false} RemoveAllAroundUtc(a: string, b: string)
    ensures RemoveAll(a + "_utc" + b, "_utc") == RemoveAll(a, "_utc") + RemoveAll(b, "_utc")
    decreases |a|
  {
    var pat := "_utc";
    var s := a + pat + b;
    if a == [] {
      assert s == pat + b;
      assert s[|pat|..] == b;
    } else if pat <= a {
      assert pat <= s by { assert s[..4] == a[..4]; }
      assert s[|pat|..] == a[|pat|..] + pat + b;
      RemoveAllAroundUtc(a[|pat|..], b);
    } else {
      NoUtcAtJoin(a, b);
      assert s[1..] == a[1..] + pat + b;
      RemoveAllAroundUtc(a[1..], b);
    }
  }

  /** A non-empty `a` that does not start with "_utc" keeps `a + "_utc" + b`
      from starting with it. */
  lemma NoUtcAtJoin(a: string, b: string)
    requires a != [] && !("_utc" <= a)
    ensures !("_utc" <= a + "_utc" + b)
  {
    var s := a + "_utc" + b;
    if |a| >= 4 {
      assert s[..4] == a[..4];
    } else {
      assert s[|a|] == '_';
    }
  }

  /** A Python string iterated: one one-character string per character. */
  function Characters(s: string): (r: seq<string>)
    ensures |r| == |s|
    ensures forall i :: 0 <= i < |s| ==> r[i] == [s[i]]
  {
    if s == [] then [] else [[s[0]]] + Characters(s[1..])
  }

  /** `",".join(xs)`. */
  function Join(xs: seq<string>): (r: string) {
    if xs == [] then ""
    else if |xs| == 1 then xs[0]
    else xs[0] + "," + Join(xs[1..])
  }

  /** `s.split(",")`, the reading back of `Join`. */
  function Split(s: string): (r: seq<string>)
    ensures |r| >= 1
  {
    if s == [] then [[]]
    else
      var rest := Split(s[1..]);
      if s[0] == ',' then [[]] + rest else [[s[0]] + rest[0]] + rest[1..]
  }

  lemma {:induction false} SplitNoComma(a: string)
    requires ',' !in a
    ensures Split(a) == [a]
  {
    if a != [] {
      assert a[0] != ',' && [a[0]] + a[1..] == a;
      SplitNoComma(a[1..]);
    }
  }

  lemma {:induction false} SplitAfterItem(a: string, t: string)
    requires ',' !in a
    ensures Split(a + "," + t) == [a] + Split(t)
  {
    var s := a + "," + t;
    if a == [] {
      assert s[1..] == t;
    } else {
      assert a[0] != ',' && [a[0]] + a[1..] == a;
      assert s[0] == a[0] && s[1..] == a[1..] + "," + t;
      SplitAfterItem(a[1..], t);
    }
  }

  /** Joining a non-empty list of comma-free items and splitting the
      result gives the list back. */
  lemma {:induction false} SplitJoin(xs: seq<string>)
    requires xs != []
    requires forall i :: 0 <= i < |xs| ==> ',' !in xs[i]
    ensures Split(Join(xs)) == xs
  {
    if |xs| == 1 {
      SplitNoComma(xs[0]);
    } else {
      SplitAfterItem(xs[0], Join(xs[1..]));
      SplitJoin(xs[1..]);
    }
  }
}
